=== FILE: README.md ===
# MemUsageTracker in Dafny

MemUsageTracker watches one process's peak resident memory. Every interval it
reads the process's status file (`/proc/<pid>/status`) and finds the line that
holds the `VmHWM` (high-water mark) field. It takes the number from that line and
prints it whenever it exceeds the largest value seen so far.

This project models the logic of that tool as pure Dafny functions and methods,
with proofs:

- **The status-text reader** (`Read_StatusProcFile`). The model works on the text
  of the status file, not on a file descriptor. The reader splits the text on
  `'\n'`. It takes the first terminated line that contains `VmHWM` anywhere. It
  skips from the start of that line to the first ASCII digit and returns the
  decimal value of that run of digits. When no terminated line matches, it
  returns 0.
  - `Sampler` holds the reader over split lines (`ReadStatus`) and the
    character-at-a-time loop the C code runs (`ReadStatusProcFile`, `ScanField`).
    It proves the two equal.
  - `AsWritten` models the C function exactly, down to its 1024-byte stack buffer.
    It proves that, on NUL-free text, the C function agrees with `Sampler`
    wherever `Sampler` gives a value. It also exhibits the two defects listed
    under Findings.
- **The driver loop** (`main`). `PeakTracker` keeps the running maximum (it
  starts at 0) and the list of reported values. It runs as a fold over a finite
  sequence of samples. `Monitor` feeds it with successive snapshots of the status
  file.
- **Argument handling** (`Arguments`). This covers the checks on the process-id
  argument and the choice of the wait interval (default 10, scaled by 100).

Supporting modules:

- `Text`: digits, decimal values, substring search, character search.
- `StatusLines`: splitting text into lines and joining lines back.
- `Wrappers`: `Option` and `Result`.

Three behaviours of the C code look unintended; the model keeps them as written:

- A missing `VmHWM` field reads as 0, as at MemUsageTracker.c:103. It is not a
  typed "not found" result. `PeakTracker.MissingFieldIsSilent` shows that such a
  0 never changes the tracker and is never reported.
- The digit scan starts at the beginning of the matched line, not after the
  label. So a digit in front of the label wins (`Sampler.DigitsBeforeLabelWin`).
- The interval argument is used only when there are exactly two arguments
  (`argc == 3`). With more arguments, the default applies.

## Model

| member | source | states |
|---|---|---|
| Text.ContainsIffOccurs | MemUsageTracker.c:77 | The substring test succeeds exactly when `VmHWM` occurs at some position of the line. The position can be anywhere, not only at the start. |
| Text.DecimalRoundTrip | MemUsageTracker.c:89 | Decimal value and canonical spelling are inverse: reading a canonical digit string and spelling the value again gives back the same string. |
| StatusLines.JoinOfSplit | MemUsageTracker.c:72-75 | Splitting on `'\n'` loses nothing: the terminated lines, each followed by `'\n'`, and then the unterminated residue rebuild the text. |
| StatusLines.SplitOfJoin | MemUsageTracker.c:72-75 | Splitting is the inverse of joining: newline-free lines joined with terminators, plus a newline-free residue, split back into exactly those lines and that residue. |
| StatusLines.SplitIsNewlineFree | MemUsageTracker.c:73-74 | No line handed to the line test, and no residue, contains a `'\n'`. |
| Sampler.ParseField | MemUsageTracker.c:79-89 | On a matched line: the result is an error exactly when the line has no digit. Otherwise it is the decimal value of the first maximal run of digits, counted from the start of the line. |
| Sampler.ParseFieldOfNumber | MemUsageTracker.c:79-89 | A number written after a digit-free prefix and before a non-digit reads back as that number, as in `VmHWM:\t 123456 kB`. |
| Sampler.FirstMatchDecides | MemUsageTracker.c:73-92 | The first terminated line that contains `VmHWM` decides the reading. Earlier lines that fit and do not match are skipped. Nothing after the matched line is looked at, however long or malformed. |
| Sampler.NoMatchReadsZero | MemUsageTracker.c:72-103 | If no terminated line contains `VmHWM` and every line fits the buffer, the reading is 0. |
| Sampler.OverlongResidueFails | MemUsageTracker.c:72-100 | If no terminated line contains `VmHWM` and all of them fit, an unterminated last line of more than 1024 characters is a `LineTooLong` error. Its last character would be stored past the end of the buffer. |
| Sampler.ResidueIgnored | MemUsageTracker.c:72-100 | Characters after the last `'\n'` never change the reading, as long as they fit the buffer. |
| Sampler.LongLineFails | MemUsageTracker.c:68-99 | A terminated line of 1024 or more characters is a `LineTooLong` error, unless an earlier line already matched. |
| Sampler.OverlongStart | MemUsageTracker.c:98-99 | Text whose first line, terminated or not, runs past 1024 characters is a `LineTooLong` error. |
| Sampler.WellFormedLine | MemUsageTracker.c:77-92 | The line `VmHWM:\t 123456 kB` reads as 123456, after any skipped lines and before any text at all. |
| Sampler.DigitsBeforeLabelWin | MemUsageTracker.c:79-81 | The line `7 VmHWM: 123 kB` reads as 7: the digit scan starts at the start of the line, not after the label. |
| Sampler.ReadStatusProcFile | MemUsageTracker.c:68-103 | The character-at-a-time loop gives exactly the reading defined over split lines. It has a pending line buffer, tests each line on its `'\n'`, and returns at the first match. |
| Sampler.ScanField | MemUsageTracker.c:79-89 | Skipping to the first digit and accumulating digits up to the first non-digit gives exactly `ParseField`. |
| AsWritten.AgreesWithSampler | MemUsageTracker.c:59-104 | On NUL-free text, the C function on its 1024-byte buffer returns the same value as `Sampler.ReadStatus` whenever that gives a value. Where `Sampler.ReadStatus` reports a line too long, the C function overruns its buffer. |
| AsWritten.StaleDigitsReported | MemUsageTracker.c:79-81 | The text `VmRSS: 500 kB\nVmHWM:\n` makes the C function return 500, a value left in the buffer by the earlier line. The corrected reader reports `NoDigits` for the same text. |
| AsWritten.MissingDigitsOverrunScan | MemUsageTracker.c:79-81 | The text `VmHWM:\n` leaves no digit anywhere in the zeroed buffer, so the C scan for a digit runs past its end. The corrected reader reports `NoDigits` for the same text. |
| AsWritten.LongLineOverruns | MemUsageTracker.c:72-99 | A line of 1024 or more characters, after any lines that are skipped, is written past the end of the C buffer. Every line is written from the start of the buffer again (:95), so skipped lines before it do not change this. |
| PeakTracker.Step | MemUsageTracker.c:135-138 | One loop pass: the new maximum is the larger of the old maximum and the sample. The sample is reported exactly when it is strictly greater than the old maximum. Otherwise nothing changes. |
| PeakTracker.TrackPeak | MemUsageTracker.c:130-136 | After any run, the running maximum is at least every sample. It is either 0 (its start value) or one of the samples. |
| PeakTracker.TrackReportsRecords | MemUsageTracker.c:130-138 | The reported values are exactly the records of the samples, in order. A record is a positive sample strictly above every earlier sample. |
| PeakTracker.ReportsIncrease | MemUsageTracker.c:130-138 | Reports strictly increase and never include 0. The last report equals the running maximum. There is no report exactly when the maximum is still 0. |
| PeakTracker.ExampleRun | MemUsageTracker.c:130-138 | Samples 100, 100, 250, 200, 400 give reports 100, 250, 400 and a maximum of 400. |
| PeakTracker.Readings | MemUsageTracker.c:134 | The values read from successive snapshots, up to the first failed read. Each value is that snapshot's reading, and a shorter list means the next read failed. |
| PeakTracker.Monitor | MemUsageTracker.c:130-138 | The driver over snapshots ends in the tracker state of the fold over the successful readings. It stops exactly at the first failed read and returns that error. |
| PeakTracker.MissingFieldIsSilent | MemUsageTracker.c:103-136 | A snapshot without the `VmHWM` field reads as 0, and that reading leaves any tracker unchanged. |
| Arguments.WaitTicks | MemUsageTracker.c:116-127 | The wait counter is 100 times the parsed interval when `argc == 3` and the second argument parses. It is 100 times the default of 10 when it does not parse and for any other `argc`, including more than two arguments. |
| Arguments.Configure | MemUsageTracker.c:110-127 | No argument gives `MissingPid`. An unparsable first argument gives `InvalidPid`. Otherwise the pid is the parsed first argument and the wait counter follows `WaitTicks`. |
| Arguments.ConfigureReadsUsedArgs | MemUsageTracker.c:109-123 | Two command lines of the same length that agree on the first argument, and on the second when there are exactly two, are configured identically. No other argument is ever looked at. |
| Arguments.ExtraArgumentRestoresDefault | MemUsageTracker.c:116-123 | Adding a third argument to a valid two-argument command line keeps the pid and drops the interval back to the default of 10, whatever that argument is. |

## Findings

| source | as written | input that shows it | evidently intended | confidence | as-written member | corrected member |
|---|---|---|---|---|---|---|
| MemUsageTracker.c:80-81 | The scan for the first digit does not stop at the NUL that ends the matched line. It runs on into bytes that earlier, longer lines left in the buffer, and past the buffer when it finds none. | `VmRSS: 500 kB\nVmHWM:\n` returns 500 | A matched line without a number is a read error | not executed; follows from the buffer layout at lines 68-99 | AsWritten.StaleDigitsReported | Sampler.ParseField |
| MemUsageTracker.c:98-99 | Characters are stored with no check against the 1024-byte buffer, and the terminator at line 74 likewise | a terminated line of 1024 or more characters before the first `VmHWM` line | An over-long line is rejected | not executed; the `Groups:` line comes before `VmHWM` in the status file and grows with the number of supplementary groups | AsWritten.LongLineOverruns | Sampler.LongLineFails |

The rest of the model (`Sampler`, `PeakTracker.Monitor`) uses the corrected
reader. `Sampler` reports these two cases as `NoDigits` and `LineTooLong`
instead of reading stale or out-of-bounds memory.

## Left out

- Opening, reading and closing the status file, and formatting its path from the
  pid (MemUsageTracker.c:60-65, 102). The model takes the file's text as a string.
  A failed `open` is not modelled.
- The file descriptor is not closed on the early return at MemUsageTracker.c:92.
  This is a resource leak on every successful sample. It is I/O and is not modelled.
- `__Script_Assert` raising `SIGABRT` and `__Script_Warn` printing
  (MemUsageTracker.c:38-57). The reader's own aborts are not modelled: a failed
  `open` (MemUsageTracker.c:65), the conversion error value (MemUsageTracker.c:90)
  and a failed `close` (MemUsageTracker.c:102). The failures `Monitor` stops at
  are those of the corrected reader: `LineTooLong` and `NoDigits`. The C code
  does not abort on those snapshots. It has undefined behaviour there, or it
  reports digits left over from an earlier line (see Findings).
- Stringlib.h is not part of this model. `__Safe_Strstr` is modelled as a plain
  substring test. `__Safe_Atoi` on the digit run is modelled as the exact decimal
  value, with no overflow and no `SAFE_ATOI_ERROR` sentinel. For the command-line
  arguments, the parse result itself is the input (`Option<int>`).
- Integer widths: samples and the running maximum are unbounded naturals, not
  `uint64_t`. The pid and wait counter are unbounded integers, not `int64_t`, so
  the multiplication by 100 cannot overflow in the model.
- The `clock()` busy-wait (MemUsageTracker.c:141-146) and the endless `while(1)`
  (MemUsageTracker.c:132). The driver runs over a finite sequence of samples or
  snapshots, which stands for any prefix of the endless loop.
- The `printf` text of the banner and of each report. A report is the reported
  value.
- NUL characters inside the status text. `AsWritten` models the C-string label
  test on them, but `Sampler` treats a line as a whole.
- Bytes versus characters: the model's text is a sequence of `char`s, and each one
  stands for one byte of the status file. No character encoding is modelled.
- AsWritten.AgreesWithSampler: it assumes NUL-free text, because the C label test
  stops at a NUL. It claims nothing for a matched line without digits, because
  there the C result depends on stale buffer contents (see Findings).

=== FILE: arguments.dfy ===
/**
  The driver's command-line handling: the first argument is the process id,
  the optional second one the interval between samples.  Each argument is
  given as the result of the C code's decimal conversion: `Some(n)` when it
  parsed to `n`, `None` when the conversion reported an error.
 */
module Arguments {
  import opened Wrappers

  /** The interval used when none (or an unusable one) is given. */
  const DefaultWaitSeconds: int := 10

  /** The factor the interval is multiplied by before it is used as the wait counter. */
  const WaitScale: int := 100

  datatype ArgError =
    | MissingPid   // no argument after the program name
    | InvalidPid   // the first argument does not parse

  datatype Settings = Settings(pid: int, waitTicks: int)

  /** The scaled wait counter: the parsed interval when the command line has
      exactly two arguments and the second one parses, the default otherwise
      (also when more than two arguments are given). */
  function WaitTicks(argc: int, intervalArg: Option<int>): (w: int)
    ensures argc == 3 && intervalArg.Some? ==> w == intervalArg.value * WaitScale
    ensures argc != 3 || intervalArg.None? ==> w == DefaultWaitSeconds * WaitScale
  {
    var seconds :=
      if argc == 3 then
        match intervalArg
        case Some(n) => n
        case None => DefaultWaitSeconds
      else DefaultWaitSeconds;
    seconds * WaitScale
  }

  /** Start-up checks of the driver; `args` are the arguments after the
      program name, so the C code's `argc` is |args| + 1. */
  function Configure(args: seq<Option<int>>): (r: Result<Settings, ArgError>)
    ensures r == Failure(MissingPid) <==> |args| == 0
    ensures r == Failure(InvalidPid) <==> |args| > 0 && args[0].None?
    ensures r.Success? ==> |args| > 0 && args[0] == Some(r.value.pid)
    ensures r.Success? && |args| == 2 && args[1].Some? ==> r.value.waitTicks == args[1].value * WaitScale
    ensures r.Success? && (|args| != 2 || args[1].None?) ==> r.value.waitTicks == DefaultWaitSeconds * WaitScale
  {
    var argc := |args| + 1;
    if argc < 2 then Failure(MissingPid)
    else
      match args[0]
      case None => Failure(InvalidPid)
      case Some(pid) => Success(Settings(pid, WaitTicks(argc, if argc == 3 then args[1] else None)))
  }

  /** Only the first argument and, with exactly two arguments, the second one
      matter: command lines that agree on those are configured alike. */
  lemma ConfigureReadsUsedArgs(a: seq<Option<int>>, b: seq<Option<int>>)
    requires |a| == |b|
    requires |a| > 0 ==> a[0] == b[0]
    requires |a| == 2 ==> a[1] == b[1]
    ensures Configure(a) == Configure(b)
  {
  }

  /** A third argument switches a valid interval off again: the pid is kept,
      the wait counter falls back to the default. */
  lemma ExtraArgumentRestoresDefault(args: seq<Option<int>>, extra: Option<int>)
    requires |args| == 2 && Configure(args).Success?
    ensures Configure(args + [extra]).Success?
    ensures Configure(args + [extra]).value.pid == Configure(args).value.pid
    ensures Configure(args + [extra]).value.waitTicks == DefaultWaitSeconds * WaitScale
  {
    assert (args + [extra])[0] == args[0];
  }
}

=== FILE: aswritten.dfy ===
/**
  The reader exactly as the C code of MemUsageTracker.c behaves on its 1024-character
  stack buffer, including what it does outside the cases it was written for.
  The buffer is never cleared between lines; each line is written from
  index 0 and closed with a NUL, so bytes of an earlier, longer line stay
  behind the NUL.  The label test sees the buffer as a C string (up to the
  first NUL), but the digit scan does not stop at the NUL.

  Writes and reads past the end of the buffer are undefined behaviour in C;
  here they end the run with an `UndefinedBehaviour` outcome.
 */
module AsWritten {
  import opened Wrappers
  import opened Text
  import opened StatusLines
  import Sampler

  datatype Undefined =
    | BufferOverrun   // a character or terminator written past the buffer
    | ScanOverrun     // a digit scan read past the buffer

  datatype Outcome = Returns(value: nat) | UndefinedBehaviour(cause: Undefined)

  /** A zero-initialised line buffer. */
  function EmptyBuffer(): (b: string)
    ensures |b| == Sampler.BufferSize
    ensures forall i | 0 <= i < |b| :: b[i] == '\0'
  {
    seq(Sampler.BufferSize, _ => '\0')
  }

  /** The buffer as a C string: everything before the first NUL. */
  function CString(b: string): string {
    b[..IndexOf(b, '\0')]
  }

  /** The digit scan of a matched line: from the buffer's start to the first
      digit, whatever lies in between, then to the first non-digit. */
  function ScanBuffer(b: string): Outcome
    requires |b| == Sampler.BufferSize
  {
    var i := DigitFrom(b, 0);
    if i == |b| then UndefinedBehaviour(ScanOverrun)
    else
      var j := RunEnd(b, i);
      if j == |b| then UndefinedBehaviour(ScanOverrun)
      else Returns(DecimalValue(b[i..j]))
  }

  /** The read loop: `buf` is the buffer, `pos` the write position. */
  function Feed(rest: string, buf: string, pos: nat): Outcome
    requires |buf| == Sampler.BufferSize && pos <= Sampler.BufferSize
    decreases |rest|
  {
    if rest == [] then Returns(0)
    else if pos == Sampler.BufferSize then UndefinedBehaviour(BufferOverrun)
    else if rest[0] == '\n' then
      var b := buf[pos := '\0'];
      if Contains(CString(b), Sampler.Label) then ScanBuffer(b) else Feed(rest[1..], b, 0)
    else Feed(rest[1..], buf[pos := rest[0]], pos + 1)
  }

  function ReadStatusProcFile(text: string): Outcome {
    Feed(text, EmptyBuffer(), 0)
  }

  /** `buf` with `line` written from index `pos` on. */
  function Write(buf: string, pos: nat, line: string): (b: string)
    requires pos + |line| <= |buf|
    ensures |b| == |buf|
  {
    buf[..pos] + line + buf[pos + |line|..]
  }

  /** Characters other than '\n' are copied into the buffer one after another. */
  lemma {:induction false} FeedChars(line: string, rest: string, buf: string, pos: nat)
    requires |buf| == Sampler.BufferSize && pos + |line| <= Sampler.BufferSize
    requires NewlineFree(line)
    ensures Feed(line + rest, buf, pos) == Feed(rest, Write(buf, pos, line), pos + |line|)
    decreases |line|
  {
    if line == [] {
      assert line + rest == rest;
      assert Write(buf, pos, line) == buf;
    } else {
      var b := buf[pos := line[0]];
      assert (line + rest)[0] == line[0];
      assert (line + rest)[1..] == line[1..] + rest;
      FeedChars(line[1..], rest, b, pos + 1);
      assert Write(b, pos + 1, line[1..]) == Write(buf, pos, line);
    }
  }

  /** How the C code's outcome relates to the corrected reader's: where the
      corrected reader yields a value, the C code returns the same value;
      where it reports a line too long, the C code overruns its buffer.
      Nothing is claimed where the corrected reader reports a matched line
      without digits. */
  predicate Agrees(o: Outcome, r: Result<nat, Sampler.ReadError>) {
    match r
    case Success(v) => o == Returns(v)
    case Failure(e) => e == Sampler.LineTooLong ==> o == UndefinedBehaviour(BufferOverrun)
  }

  /** A NUL right after a NUL-free line makes the C string exactly that line. */
  lemma CStringOfLine(b: string, pos: nat)
    requires pos < |b| && b[pos] == '\0' && '\0' !in b[..pos]
    ensures CString(b) == b[..pos]
  {
    assert forall j | 0 <= j < pos :: b[j] == b[..pos][j];
    assert IndexOf(b, '\0') == pos;
  }

  /** On a buffer holding a NUL-terminated line, the unbounded scan finds what
      the corrected scan finds whenever the line holds a digit. */
  lemma ScanAgrees(b: string, pos: nat)
    requires |b| == Sampler.BufferSize && pos < |b| && b[pos] == '\0'
    ensures Agrees(ScanBuffer(b), Sampler.ParseField(b[..pos]))
  {
    var line := b[..pos];
    var d := DigitFrom(line, 0);
    if d < pos {
      DigitFromPrefix(b, pos, 0);
      var e := RunEnd(line, d);
      RunEndPrefix(b, pos, d);
      assert forall k | d <= k < e :: b[k] == line[k];
      assert b[d..e] == line[d..e];
      assert Sampler.FirstDigitRun(line, d, e);
    }
  }

  lemma {:induction false} FeedAgrees(rest: string, buf: string, pos: nat)
    requires |buf| == Sampler.BufferSize && pos <= Sampler.BufferSize
    requires NewlineFree(buf[..pos]) && '\0' !in buf[..pos]
    requires '\0' !in rest
    ensures Agrees(Feed(rest, buf, pos), Sampler.ReadStatus(buf[..pos] + rest))
    decreases |rest|
  {
    var cur := buf[..pos];
    if rest == [] {
      LinesOfNewlineFree(cur);
      assert cur + rest == cur;
    } else if pos == Sampler.BufferSize {
      if rest[0] == '\n' {
        assert cur + rest == cur + "\n" + rest[1..];
        Sampler.ReadLine(cur, rest[1..]);
      } else {
        assert cur + rest == cur + [rest[0]] + rest[1..];
        Sampler.OverlongLine(cur + [rest[0]], rest[1..]);
      }
    } else if rest[0] == '\n' {
      var b := buf[pos := '\0'];
      assert b[..pos] == cur;
      assert cur + rest == cur + "\n" + rest[1..];
      Sampler.ReadLine(cur, rest[1..]);
      CStringOfLine(b, pos);
      if Contains(cur, Sampler.Label) {
        ScanAgrees(b, pos);
      } else {
        assert b[..0] + rest[1..] == rest[1..];
        FeedAgrees(rest[1..], b, 0);
      }
    } else {
      var b := buf[pos := rest[0]];
      assert b[..pos + 1] == cur + [rest[0]];
      assert b[..pos + 1] + rest[1..] == cur + rest;
      FeedAgrees(rest[1..], b, pos + 1);
    }
  }

  /** On NUL-free text the C code returns the corrected reader's value
      whenever there is one, and overruns its buffer where the corrected
      reader reports a line too long. */
  lemma AgreesWithSampler(text: string)
    requires '\0' !in text
    ensures Agrees(ReadStatusProcFile(text), Sampler.ReadStatus(text))
  {
    var e := EmptyBuffer();
    assert e[..0] + text == text;
    FeedAgrees(text, e, 0);
  }

  /** A line of 1024 or more characters is written past the end of the buffer
      before the reader ever looks at it, whatever skipped lines come first:
      every line is written from the start of the buffer again. */
  lemma LongLineOverruns(before: seq<string>, line: string, after: string)
    requires AllNewlineFree(before) && Sampler.AllSkipped(before)
    requires NewlineFree(line) && |line| >= Sampler.BufferSize
    ensures ReadStatusProcFile(Join(before) + line + "\n" + after) == UndefinedBehaviour(BufferOverrun)
  {
    var n := Sampler.BufferSize;
    var rest := line[n..] + "\n" + after;
    assert Join(before) + line + "\n" + after == Join(before) + (line[..n] + rest);
    var b := FeedSkipped(before, line[..n] + rest, EmptyBuffer());
    FeedChars(line[..n], rest, b, 0);
  }

  /** Skipped lines are copied in, closed and passed over one after another;
      `b` is what they leave in the buffer. */
  lemma {:induction false} FeedSkipped(before: seq<string>, rest: string, buf: string) returns (b: string)
    requires |buf| == Sampler.BufferSize
    requires AllNewlineFree(before) && Sampler.AllSkipped(before)
    ensures |b| == Sampler.BufferSize
    ensures Feed(Join(before) + rest, buf, 0) == Feed(rest, b, 0)
    decreases |before|
  {
    if before == [] {
      assert Join(before) + rest == rest;
      b := buf;
    } else {
      var line, tail := before[0], before[1..];
      JoinUncons(before, rest);
      TailNewlineFree(before);
      assert Sampler.Skipped(before[0]);
      assert forall i | 0 <= i < |tail| :: tail[i] == before[i + 1];
      SkippedLinePassed(line, Join(tail) + rest, buf);
      b := FeedSkipped(tail, rest, Closed(buf, line));
    }
  }

  /** A skipped line is copied in, closed and passed over, even if it holds a
      NUL: the label test then sees only a prefix of the line, and a prefix of
      a line without the label does not hold it either. */
  lemma SkippedLinePassed(line: string, rest: string, buf: string)
    requires |buf| == Sampler.BufferSize
    requires NewlineFree(line) && Sampler.Skipped(line)
    ensures Feed(line + "\n" + rest, buf, 0) == Feed(rest, Closed(buf, line), 0)
  {
    var t, w := "\n" + rest, Write(buf, 0, line);
    ConcatAssoc(line, "\n", rest);
    FeedChars(line, t, buf, 0);
    FeedNewline(rest, w, |line|);
    var b := Closed(buf, line);
    assert b[..|line|] == line;
    CStringWithin(b, |line|);
    NoLabelInPrefix(line, |CString(b)|);
  }

  /** A NUL at index `n` bounds the C string to a prefix of `b[..n]`. */
  lemma CStringWithin(b: string, n: nat)
    requires n < |b| && b[n] == '\0'
    ensures |CString(b)| <= n && CString(b) == b[..n][..|CString(b)|]
  {
  }

  /** A prefix of a line without the label does not hold the label. */
  lemma NoLabelInPrefix(line: string, k: nat)
    requires k <= |line| && !Contains(line, Sampler.Label)
    ensures !Contains(line[..k], Sampler.Label)
  {
    ContainsIffOccurs(line, Sampler.Label);
    ContainsIffOccurs(line[..k], Sampler.Label);
    forall i | OccursAt(line[..k], Sampler.Label, i)
      ensures OccursAt(line, Sampler.Label, i)
    {
      assert line[..k][i..i + |Sampler.Label|] == line[i..i + |Sampler.Label|];
    }
  }

  /** A matched line without digits makes the scan run on past the NUL into
      what an earlier, longer line left in the buffer: here the value of the
      "VmRSS" line is reported as the peak, where the corrected reader
      reports that the matched line holds no number. */
  lemma StaleDigitsReported(text: string)
    requires text == "VmRSS: 500 kB\nVmHWM:\n"
    ensures ReadStatusProcFile(text) == Returns(500)
    ensures Sampler.ReadStatus(text) == Failure(Sampler.NoDigits)
  {
    var l1, l2 := "VmRSS: 500 kB", "VmHWM:";
    assert text == l1 + "\n" + (l2 + "\n");
    var b1 := StaleFirstLine(l1, l2 + "\n");
    var b2 := StaleSecondLine(b1, l2);
    StaleScan(b2);
    StaleCorrected(l1, l2);
  }

  /** The buffer after `line` was copied in from the start and NUL-terminated. */
  function Closed(buf: string, line: string): (b: string)
    requires |buf| == Sampler.BufferSize && |line| < Sampler.BufferSize
    ensures |b| == Sampler.BufferSize
  {
    Write(buf, 0, line)[|line| := '\0']
  }

  /** A complete line is copied in and closed with a NUL; then it is either
      scanned or passed over. */
  lemma FeedLine(line: string, rest: string, buf: string)
    requires |buf| == Sampler.BufferSize && |line| < Sampler.BufferSize
    requires NewlineFree(line) && '\0' !in line
    ensures Feed(line + "\n" + rest, buf, 0) ==
      (if Contains(line, Sampler.Label) then ScanBuffer(Closed(buf, line))
       else Feed(rest, Closed(buf, line), 0))
  {
    var t, w := "\n" + rest, Write(buf, 0, line);
    ConcatAssoc(line, "\n", rest);
    FeedChars(line, t, buf, 0);
    assert Feed(line + "\n" + rest, buf, 0) == Feed(t, w, |line|);
    FeedNewline(rest, w, |line|);
    ClosedHoldsLine(buf, line);
  }

  /** A '\n' at a position inside the buffer closes the line there with a NUL. */
  lemma FeedNewline(rest: string, buf: string, pos: nat)
    requires |buf| == Sampler.BufferSize && pos < Sampler.BufferSize
    ensures Feed("\n" + rest, buf, pos) ==
      (var b := buf[pos := '\0'];
       if Contains(CString(b), Sampler.Label) then ScanBuffer(b) else Feed(rest, b, 0))
  {
    assert ("\n" + rest)[0] == '\n';
    assert ("\n" + rest)[1..] == rest;
  }

  /** Seen as a C string, a closed buffer holds exactly the line written into it. */
  lemma ClosedHoldsLine(buf: string, line: string)
    requires |buf| == Sampler.BufferSize && |line| < Sampler.BufferSize
    requires '\0' !in line
    ensures CString(Closed(buf, line)) == line
  {
    var b := Closed(buf, line);
    assert b[..|line|] == line;
    CStringOfLine(b, |line|);
  }

  /** The first line is copied in, NUL-terminated and passed over. */
  lemma StaleFirstLine(l1: string, rest: string) returns (b1: string)
    requires l1 == "VmRSS: 500 kB"
    ensures |b1| == Sampler.BufferSize && b1[..14] == "VmRSS: 500 kB\0"
    ensures Feed(l1 + "\n" + rest, EmptyBuffer(), 0) == Feed(rest, b1, 0)
  {
    Sampler.LabelLetters(l1, 2);
    assert 'H' !in l1;
    FeedLine(l1, rest, EmptyBuffer());
    b1 := Closed(EmptyBuffer(), l1);
    assert b1[..13] == l1;
  }

  /** The second line is written over the start of the first and matched. */
  lemma StaleSecondLine(b1: string, l2: string) returns (b2: string)
    requires |b1| == Sampler.BufferSize && b1[..14] == "VmRSS: 500 kB\0"
    requires l2 == "VmHWM:"
    ensures |b2| == Sampler.BufferSize && b2[..14] == "VmHWM:\0500 kB\0"
    ensures Feed(l2 + "\n", b1, 0) == ScanBuffer(b2)
  {
    assert OccursAt(l2, Sampler.Label, 0);
    ContainsIffOccurs(l2, Sampler.Label);
    assert l2 + "\n" + [] == l2 + "\n";
    FeedLine(l2, [], b1);
    b2 := Closed(b1, l2);
    StaleSecondBuffer(b1, l2, b2);
  }

  lemma StaleSecondBuffer(b1: string, l2: string, b2: string)
    requires |b1| == Sampler.BufferSize && b1[..14] == "VmRSS: 500 kB\0"
    requires l2 == "VmHWM:" && b2 == Closed(b1, l2)
    ensures b2[..14] == "VmHWM:\0500 kB\0"
  {
    assert forall j | 6 < j < 14 :: b2[j] == b1[j] == b1[..14][j];
  }

  /** The scan skips the NUL at index 6 and picks up "500" left at 7..9. */
  lemma StaleScan(b2: string)
    requires |b2| == Sampler.BufferSize && b2[..14] == "VmHWM:\0500 kB\0"
    ensures ScanBuffer(b2) == Returns(500)
  {
    assert forall j | 0 <= j < 7 :: b2[j] == b2[..14][j];
    assert forall j | 0 <= j < 7 :: !IsDigit(b2[j]);
    assert IsDigit(b2[7]);
    assert DigitFrom(b2, 0) == 7;
    assert b2[7..10] == "500";
    assert b2[10] == ' ';
    assert RunEnd(b2, 7) == 10;
    assert ToDecimal(500) == "500";
  }

  /** The corrected reader stops at the matched line and reports it has no digits. */
  lemma StaleCorrected(l1: string, l2: string)
    requires l1 == "VmRSS: 500 kB" && l2 == "VmHWM:"
    ensures Sampler.ReadStatus(l1 + "\n" + (l2 + "\n")) == Failure(Sampler.NoDigits)
  {
    StaleLinesRead(l1, l2);
    Sampler.ReadLine(l1, l2 + "\n");
    Sampler.ReadLine(l2, []);
    assert l2 + "\n" + [] == l2 + "\n";
  }

  /** The first line of the example is skipped; the second is matched and has no digit. */
  lemma StaleLinesRead(l1: string, l2: string)
    requires l1 == "VmRSS: 500 kB" && l2 == "VmHWM:"
    ensures NewlineFree(l1) && Sampler.Skipped(l1)
    ensures NewlineFree(l2) && Sampler.Fits(l2) && Contains(l2, Sampler.Label)
    ensures Sampler.ParseField(l2) == Failure(Sampler.NoDigits)
  {
    Sampler.LabelLetters(l1, 2);
    assert 'H' !in l1;
    BareLabelLine(l2);
  }

  /** The bare label line is matched and holds no digit. */
  lemma BareLabelLine(l: string)
    requires l == "VmHWM:"
    ensures NewlineFree(l) && Sampler.Fits(l) && '\0' !in l && Contains(l, Sampler.Label)
    ensures Sampler.ParseField(l) == Failure(Sampler.NoDigits)
  {
    assert OccursAt(l, Sampler.Label, 0);
    ContainsIffOccurs(l, Sampler.Label);
    assert forall k | 0 <= k < |l| :: !IsDigit(l[k]);
  }

  /** A matched line without digits, with nothing stale behind it, sends the
      scan past the end of the buffer; the corrected reader reports that the
      line holds no number. */
  lemma MissingDigitsOverrunScan(text: string)
    requires text == "VmHWM:\n"
    ensures ReadStatusProcFile(text) == UndefinedBehaviour(ScanOverrun)
    ensures Sampler.ReadStatus(text) == Failure(Sampler.NoDigits)
  {
    var l := "VmHWM:";
    assert text == l + "\n" + [];
    BareLabelLine(l);
    FeedLine(l, [], EmptyBuffer());
    DigitFreeScan(Closed(EmptyBuffer(), l), l);
    Sampler.ReadLine(l, []);
  }

  /** A digit-free line closed in a zeroed buffer leaves no digit anywhere. */
  lemma DigitFreeScan(b: string, l: string)
    requires l == "VmHWM:" && b == Closed(EmptyBuffer(), l)
    ensures ScanBuffer(b) == UndefinedBehaviour(ScanOverrun)
  {
    forall j | 0 <= j < |b|
      ensures !IsDigit(b[j])
    {
      if j < |l| {
        assert b[j] == l[j];
      } else {
        assert b[j] == '\0';
      }
    }
    assert DigitFrom(b, 0) == |b|;
  }
}

=== FILE: lines.dfy ===
/**
  How the reader cuts the status text into lines: every '\n' ends a line,
  and whatever follows the last '\n' is an unterminated residue that is never
  handed to the line test.
 */
module StatusLines {
  import opened Text

  predicate NewlineFree(s: string) {
    '\n' !in s
  }

  predicate AllNewlineFree(ls: seq<string>) {
    forall i | 0 <= i < |ls| :: NewlineFree(ls[i])
  }

  /** The '\n'-terminated lines of `text`, in order, without their terminators. */
  function Lines(text: string): seq<string>
    decreases |text|
  {
    var k := IndexOf(text, '\n');
    if k == |text| then [] else [text[..k]] + Lines(text[k + 1..])
  }

  /** The characters after the last '\n' (all of `text` when it has none). */
  function Residue(text: string): string
    decreases |text|
  {
    var k := IndexOf(text, '\n');
    if k == |text| then text else Residue(text[k + 1..])
  }

  /** Writes each line followed by its '\n' terminator. */
  function Join(ls: seq<string>): string
  {
    if ls == [] then [] else ls[0] + "\n" + Join(ls[1..])
  }

  /** A newline-free line followed by '\n' is split off as the first line. */
  lemma LinesOfLine(line: string, rest: string)
    requires NewlineFree(line)
    ensures Lines(line + "\n" + rest) == [line] + Lines(rest)
    ensures Residue(line + "\n" + rest) == Residue(rest)
  {
    var t := line + "\n" + rest;
    assert t[|line|] == '\n';
    assert forall j | 0 <= j < |line| :: t[j] == line[j];
    var k := IndexOf(t, '\n');
    assert k == |line|;
    assert t[..k] == line;
    assert t[k + 1..] == rest;
  }

  /** Text without '\n' holds no terminated line: all of it is residue. */
  lemma LinesOfNewlineFree(s: string)
    requires NewlineFree(s)
    ensures Lines(s) == [] && Residue(s) == s
  {
    assert IndexOf(s, '\n') == |s|;
  }

  /** Splitting is the inverse of joining: every line comes back, and so does the residue. */
  lemma {:induction false} SplitOfJoin(ls: seq<string>, r: string)
    requires AllNewlineFree(ls) && NewlineFree(r)
    ensures Lines(Join(ls) + r) == ls
    ensures Residue(Join(ls) + r) == r
    decreases |ls|
  {
    if ls == [] {
      LinesOfNewlineFree(r);
    } else {
      assert Join(ls) + r == ls[0] + "\n" + (Join(ls[1..]) + r);
      LinesOfLine(ls[0], Join(ls[1..]) + r);
      SplitOfJoin(ls[1..], r);
    }
  }

  lemma JoinCons(line: string, ls: seq<string>)
    ensures Join([line] + ls) == line + "\n" + Join(ls)
  {
    assert ([line] + ls)[0] == line;
    assert ([line] + ls)[1..] == ls;
  }

  /** Joining is the inverse of splitting: lines plus residue rebuild the text. */
  lemma {:induction false} JoinOfSplit(text: string)
    ensures Join(Lines(text)) + Residue(text) == text
    decreases |text|
  {
    var k := IndexOf(text, '\n');
    if k == |text| {
      assert NewlineFree(text);
      LinesOfNewlineFree(text);
      assert Join([]) + text == text;
    } else {
      var line, rest := text[..k], text[k + 1..];
      assert NewlineFree(line);
      assert text == line + "\n" + rest;
      LinesOfLine(line, rest);
      JoinOfSplit(rest);
      var ls := Lines(rest);
      JoinCons(line, ls);
      ConcatAssoc(line + "\n", Join(ls), Residue(rest));
    }
  }

  lemma ConcatAssoc<T>(a: seq<T>, b: seq<T>, c: seq<T>)
    ensures a + b + c == a + (b + c)
  {
  }

  /** Neither the lines nor the residue contain a '\n'. */
  lemma {:induction false} SplitIsNewlineFree(text: string)
    ensures AllNewlineFree(Lines(text)) && NewlineFree(Residue(text))
    decreases |text|
  {
    var k := IndexOf(text, '\n');
    if k < |text| {
      var line, rest := text[..k], text[k + 1..];
      SplitIsNewlineFree(rest);
      var ls := Lines(text);
      assert ls == [line] + Lines(rest);
      forall i | 0 <= i < |ls|
        ensures NewlineFree(ls[i])
      {
        if i > 0 {
          assert ls[i] == Lines(rest)[i - 1];
        }
      }
    }
  }

  lemma JoinUncons(ls: seq<string>, s: string)
    requires ls != []
    ensures Join(ls) + s == ls[0] + "\n" + (Join(ls[1..]) + s)
  {
  }

  lemma TailNewlineFree(ls: seq<string>)
    requires ls != [] && AllNewlineFree(ls)
    ensures NewlineFree(ls[0]) && AllNewlineFree(ls[1..])
  {
    forall i | 0 <= i < |ls[1..]|
      ensures NewlineFree(ls[1..][i])
    {
      assert ls[1..][i] == ls[i + 1];
    }
  }

  lemma ConsAppend<T>(a: seq<T>, b: seq<T>)
    requires a != []
    ensures [a[0]] + (a[1..] + b) == a + b
  {
    assert a == [a[0]] + a[1..];
  }

  /** Lines already joined in front of some text are split off unchanged. */
  lemma {:induction false} LinesAfterJoin(ls: seq<string>, s: string)
    requires AllNewlineFree(ls)
    ensures Lines(Join(ls) + s) == ls + Lines(s)
    ensures Residue(Join(ls) + s) == Residue(s)
    decreases |ls|
  {
    if ls == [] {
      assert Join(ls) + s == s;
    } else {
      var tail := Join(ls[1..]) + s;
      var whole := Join(ls) + s;
      JoinUncons(ls, s);
      assert whole == ls[0] + "\n" + tail;
      TailNewlineFree(ls);
      LinesOfLine(ls[0], tail);
      LinesAfterJoin(ls[1..], s);
      var rest := Lines(tail);
      assert Lines(whole) == [ls[0]] + rest;
      assert rest == ls[1..] + Lines(s);
      ConsAppend(ls, Lines(s));
    }
  }
}

=== FILE: sampler.dfy ===
/**
  The status-file reader: it consumes the text of a process status file, cuts
  it into '\n'-terminated lines, takes the first line that contains "VmHWM"
  anywhere, and returns the decimal value of the first run of digits in that
  line, counted from the line's start.  When no terminated line contains the
  label the reader returns 0.

  Two situations MemUsageTracker.c mishandles are error outcomes here: a line
  that does not fit the 1024-character line buffer together with its
  terminator (the C code writes past the buffer), and a matched line without
  any digit (the C digit scan runs on into stale bytes of earlier lines, or
  past the buffer).

  Each `char` of the text stands for one byte of the status file, so a length
  in characters is the byte count the C buffer is sized in.
 */
module Sampler {
  import opened Wrappers
  import opened Text
  import opened StatusLines

  /** Size of the reader's line buffer; a line needs one extra slot for its terminator. */
  const BufferSize: nat := 1024

  /** The field holding the peak resident set size (high-water mark). */
  const Label: string := "VmHWM"

  datatype ReadError =
    | LineTooLong   // a line (with its terminator) exceeds the line buffer
    | NoDigits      // the matched line holds no digit

  /** `[i, j)` is the first maximal run of digits of `line`. */
  predicate FirstDigitRun(line: string, i: int, j: int) {
    && 0 <= i < j <= |line|
    && (forall k | 0 <= k < i :: !IsDigit(line[k]))
    && (forall k | i <= k < j :: IsDigit(line[k]))
    && (j == |line| || !IsDigit(line[j]))
  }

  /** There is at most one first maximal run of digits. */
  lemma FirstDigitRunUnique(line: string, i: int, j: int)
    requires FirstDigitRun(line, i, j)
    ensures forall a, b | FirstDigitRun(line, a, b) :: a == i && b == j
  {
    forall a, b | FirstDigitRun(line, a, b)
      ensures a == i && b == j
    {
      assert IsDigit(line[a]) && IsDigit(line[i]);
      assert a == i;
      assert b == j;
    }
  }

  /** Extracts the field value from a matched line. */
  function ParseField(line: string): (r: Result<nat, ReadError>)
    ensures r.Failure? <==> forall k | 0 <= k < |line| :: !IsDigit(line[k])
    ensures r.Failure? ==> r.error == NoDigits
    ensures forall i, j | FirstDigitRun(line, i, j) ::
              AllDigits(line[i..j]) && r == Success(DecimalValue(line[i..j]))
  {
    var i := DigitFrom(line, 0);
    if i == |line| then Failure(NoDigits)
    else
      var j := RunEnd(line, i);
      assert AllDigits(line[i..j]);
      FirstDigitRunUnique(line, i, j);
      Success(DecimalValue(line[i..j]))
  }

  /** Does the line fit the buffer together with its terminator? */
  predicate Fits(line: string) {
    |line| < BufferSize
  }

  /** The reader over already split text: `lines` are the terminated lines,
      `residue` what follows the last terminator. */
  function ReadLines(lines: seq<string>, residue: string): Result<nat, ReadError>
  {
    if lines == [] then
      (if |residue| > BufferSize then Failure(LineTooLong) else Success(0))
    else if !Fits(lines[0]) then Failure(LineTooLong)
    else if Contains(lines[0], Label) then ParseField(lines[0])
    else ReadLines(lines[1..], residue)
  }

  /** The reader over the whole text of a status file. */
  function ReadStatus(text: string): Result<nat, ReadError>
  {
    ReadLines(Lines(text), Residue(text))
  }

  /** A line the reader passes over: it fits and it does not hold the label. */
  predicate Skipped(line: string) {
    Fits(line) && !Contains(line, Label)
  }

  predicate AllSkipped(ls: seq<string>) {
    forall i | 0 <= i < |ls| :: Skipped(ls[i])
  }

  /** Skipped lines in front of some text do not change the reading. */
  lemma {:induction false} SkipLines(ls: seq<string>, s: string)
    requires AllNewlineFree(ls) && AllSkipped(ls)
    ensures ReadStatus(Join(ls) + s) == ReadStatus(s)
  {
    LinesAfterJoin(ls, s);
    SkipPrefix(ls, Lines(s), Residue(s));
  }

  lemma {:induction false} SkipPrefix(ls: seq<string>, more: seq<string>, residue: string)
    requires AllSkipped(ls)
    ensures ReadLines(ls + more, residue) == ReadLines(more, residue)
    decreases |ls|
  {
    if ls != [] {
      assert (ls + more)[0] == ls[0];
      assert (ls + more)[1..] == ls[1..] + more;
      assert AllSkipped(ls[1..]) by {
        forall i | 0 <= i < |ls[1..]|
          ensures Skipped(ls[1..][i])
        {
          assert ls[1..][i] == ls[i + 1];
        }
      }
      SkipPrefix(ls[1..], more, residue);
    } else {
      assert ls + more == more;
    }
  }

  /** Reading one terminated line and then the rest. */
  lemma ReadLine(line: string, rest: string)
    requires NewlineFree(line)
    ensures ReadStatus(line + "\n" + rest) ==
      if !Fits(line) then Failure(LineTooLong)
      else if Contains(line, Label) then ParseField(line)
      else ReadStatus(rest)
  {
    LinesOfLine(line, rest);
  }

  /** The first terminated line that holds the label decides the reading, at
      whatever position the label stands in it; everything after that line,
      however long or malformed, is never looked at. */
  lemma FirstMatchDecides(before: seq<string>, line: string, after: string)
    requires AllNewlineFree(before) && AllSkipped(before)
    requires NewlineFree(line) && Fits(line)
    requires exists p :: OccursAt(line, Label, p)
    ensures ReadStatus(Join(before) + line + "\n" + after) == ParseField(line)
  {
    ContainsIffOccurs(line, Label);
    var tail := line + "\n" + after;
    ConcatAssoc(Join(before) + line, "\n", after);
    ConcatAssoc(Join(before), line, "\n" + after);
    ConcatAssoc(line, "\n", after);
    SkipLines(before, tail);
    ReadLine(line, after);
  }

  /** Without a terminated line holding the label the reading is 0, provided
      every line fits the buffer. */
  lemma {:induction false} NoMatchReadsZero(text: string)
    requires AllSkipped(Lines(text))
    requires |Residue(text)| <= BufferSize
    ensures ReadStatus(text) == Success(0)
  {
    assert Lines(text) + [] == Lines(text);
    SkipPrefix(Lines(text), [], Residue(text));
  }

  /** If no terminated line matches, an unterminated last line too long for
      the buffer is the one that fails. */
  lemma {:induction false} OverlongResidueFails(text: string)
    requires AllSkipped(Lines(text))
    requires |Residue(text)| > BufferSize
    ensures ReadStatus(text) == Failure(LineTooLong)
  {
    assert Lines(text) + [] == Lines(text);
    SkipPrefix(Lines(text), [], Residue(text));
  }

  /** Characters after the last '\n' never influence the reading, as long as
      they fit the buffer. */
  lemma ResidueIgnored(ls: seq<string>, r1: string, r2: string)
    requires AllNewlineFree(ls) && NewlineFree(r1) && NewlineFree(r2)
    requires |r1| <= BufferSize && |r2| <= BufferSize
    ensures ReadStatus(Join(ls) + r1) == ReadStatus(Join(ls) + r2)
  {
    SplitOfJoin(ls, r1);
    SplitOfJoin(ls, r2);
    ResidueIgnoredLines(ls, r1, r2);
  }

  lemma {:induction false} ResidueIgnoredLines(ls: seq<string>, r1: string, r2: string)
    requires |r1| <= BufferSize && |r2| <= BufferSize
    ensures ReadLines(ls, r1) == ReadLines(ls, r2)
    decreases |ls|
  {
    if ls != [] {
      ResidueIgnoredLines(ls[1..], r1, r2);
    }
  }

  /** A line too long for the buffer ends the reading with an error, unless
      an earlier line already held the label. */
  lemma LongLineFails(before: seq<string>, line: string, after: string)
    requires AllNewlineFree(before) && AllSkipped(before)
    requires NewlineFree(line) && !Fits(line)
    ensures ReadStatus(Join(before) + line + "\n" + after) == Failure(LineTooLong)
  {
    assert Join(before) + line + "\n" + after == Join(before) + (line + "\n" + after);
    SkipLines(before, line + "\n" + after);
    ReadLine(line, after);
  }

  /** Text whose first line, terminated or not, runs past the buffer is an error. */
  lemma OverlongStart(s: string)
    requires IndexOf(s, '\n') > BufferSize
    ensures ReadStatus(s) == Failure(LineTooLong)
  {
    var k := IndexOf(s, '\n');
    if k == |s| {
      LinesOfNewlineFree(s);
    } else {
      assert s == s[..k] + "\n" + s[k + 1..];
      ReadLine(s[..k], s[k + 1..]);
    }
  }

  /** The value of a decimal number written after a digit-free prefix, as in
      "VmHWM:\t 123456 kB". */
  lemma ParseFieldOfNumber(prefix: string, n: nat, suffix: string)
    requires forall k | 0 <= k < |prefix| :: !IsDigit(prefix[k])
    requires suffix == [] || !IsDigit(suffix[0])
    ensures ParseField(prefix + ToDecimal(n) + suffix) == Success(n)
  {
    var d := ToDecimal(n);
    var line := prefix + d + suffix;
    var i, j := |prefix|, |prefix| + |d|;
    assert line[i..j] == d;
    assert FirstDigitRun(line, i, j);
  }

  /** A line holding the label holds each of its letters. */
  lemma LabelLetters(line: string, k: nat)
    requires k < |Label|
    ensures Contains(line, Label) ==> Label[k] in line
  {
    ContainsIffOccurs(line, Label);
    if Contains(line, Label) {
      var p :| OccursAt(line, Label, p);
      assert line[p..p + |Label|][k] == line[p + k];
    }
  }

  /** A well-formed status line gives its number, whatever lines come after it. */
  lemma WellFormedLine(before: seq<string>, line: string, after: string)
    requires AllNewlineFree(before) && AllSkipped(before)
    requires line == "VmHWM:\t 123456 kB"
    ensures ReadStatus(Join(before) + line + "\n" + after) == Success(123456)
  {
    WellFormedField(line);
    FirstMatchDecides(before, line, after);
  }

  lemma WellFormedField(line: string)
    requires line == "VmHWM:\t 123456 kB"
    ensures ParseField(line) == Success(123456)
    ensures NewlineFree(line) && Fits(line) && OccursAt(line, Label, 0)
  {
    SampleRun(line);
    SpellSample(123456);
    DecimalRoundTrip(line[8..14]);
  }

  /** In the sample line the number sits at positions 8 up to 14. */
  lemma SampleRun(line: string)
    requires line == "VmHWM:\t 123456 kB"
    ensures FirstDigitRun(line, 8, 14) && line[8..14] == "123456"
  {
    assert forall k | 0 <= k < 8 :: !IsDigit(line[k]);
    assert forall k | 8 <= k < 14 :: IsDigit(line[k]);
    assert !IsDigit(line[14]);
  }

  lemma SpellSample(n: nat)
    requires n == 123456
    ensures ToDecimal(n) == "123456"
  {
    assert ToDecimal(1) == "1";
    assert ToDecimal(12) == "12";
    assert ToDecimal(123) == "123";
    assert ToDecimal(1234) == "1234";
    assert ToDecimal(12345) == "12345";
  }

  /** Digits in front of the label win: the digit scan starts at the line's start. */
  lemma DigitsBeforeLabelWin(before: seq<string>, line: string, after: string)
    requires AllNewlineFree(before) && AllSkipped(before)
    requires line == "7 VmHWM: 123 kB"
    ensures ReadStatus(Join(before) + line + "\n" + after) == Success(7)
  {
    LeadingDigitField(line);
    FirstMatchDecides(before, line, after);
  }

  lemma LeadingDigitField(line: string)
    requires line == "7 VmHWM: 123 kB"
    ensures ParseField(line) == Success(7)
    ensures NewlineFree(line) && Fits(line) && OccursAt(line, Label, 2)
  {
    assert FirstDigitRun(line, 0, 1);
    var d := line[0..1];
    assert d == [line[0]] && d[..0] == [];
    assert DecimalValue(d) == 10 * DecimalValue(d[..0]) + DigitValue(d[0]);
    assert DigitValue(line[0]) == 7;
    assert ParseField(line) == Success(DecimalValue(d));
    assert line[2..7] == Label;
  }

  /** The reader as the C code runs it: one character at a time into a line
      buffer, testing each line when its '\n' arrives and returning at once
      from the first line that holds the label. */
  method ReadStatusProcFile(text: string) returns (r: Result<nat, ReadError>)
    ensures r == ReadStatus(text)
  {
    var line: string := [];
    var i := 0;
    assert line + text[i..] == text;
    while i < |text|
      invariant 0 <= i <= |text|
      invariant NewlineFree(line) && |line| <= BufferSize
      invariant ReadStatus(text) == ReadStatus(line + text[i..])
    {
      var c := text[i];
      if c == '\n' {
        ReadNewline(line, text, i);
        if |line| >= BufferSize {
          return Failure(LineTooLong);
        }
        if Contains(line, Label) {
          r := ScanField(line);
          return;
        }
        line := [];
      } else {
        ReadChar(line, text, i);
        if |line| >= BufferSize {
          return Failure(LineTooLong);
        }
        line := line + [c];
      }
      i := i + 1;
    }
    LinesOfNewlineFree(line);
    assert line + text[i..] == line;
    r := Success(0);
  }

  /** A '\n' in the text closes the pending line, which is then tested. */
  lemma ReadNewline(line: string, text: string, i: nat)
    requires i < |text| && text[i] == '\n' && NewlineFree(line)
    requires ReadStatus(text) == ReadStatus(line + text[i..])
    ensures ReadStatus(text) ==
      (if !Fits(line) then Failure(LineTooLong)
       else if Contains(line, Label) then ParseField(line)
       else ReadStatus([] + text[i + 1..]))
  {
    var rest := text[i + 1..];
    assert text[i..] == "\n" + rest;
    ConcatAssoc(line, "\n", rest);
    assert [] + rest == rest;
    ReadLine(line, rest);
  }

  /** Any other character extends the pending line, unless the buffer is full. */
  lemma ReadChar(line: string, text: string, i: nat)
    requires i < |text| && text[i] != '\n' && NewlineFree(line)
    requires ReadStatus(text) == ReadStatus(line + text[i..])
    ensures |line| >= BufferSize ==> ReadStatus(text) == Failure(LineTooLong)
    ensures ReadStatus(text) == ReadStatus((line + [text[i]]) + text[i + 1..])
    ensures NewlineFree(line + [text[i]])
  {
    var c, rest := text[i], text[i + 1..];
    assert text[i..] == [c] + rest;
    ConcatAssoc(line, [c], rest);
    if |line| >= BufferSize {
      OverlongLine(line + [c], rest);
    }
  }

  lemma OverlongLine(line: string, rest: string)
    requires NewlineFree(line) && |line| > BufferSize
    ensures ReadStatus(line + rest) == Failure(LineTooLong)
  {
    var s := line + rest;
    assert forall j | 0 <= j < |line| :: s[j] == line[j];
    assert IndexOf(s, '\n') >= |line|;
    OverlongStart(s);
  }

  /** Digit extraction as the C code does it: skip to the first digit, then
      accumulate digits until the first non-digit. */
  method ScanField(line: string) returns (r: Result<nat, ReadError>)
    ensures r == ParseField(line)
  {
    var i := 0;
    while i < |line| && !IsDigit(line[i])
      invariant 0 <= i <= |line|
      invariant DigitFrom(line, i) == DigitFrom(line, 0)
    {
      i := i + 1;
    }
    if i == |line| {
      return Failure(NoDigits);
    }
    var j, v := i, 0;
    while j < |line| && IsDigit(line[j])
      invariant i <= j <= |line|
      invariant RunEnd(line, j) == RunEnd(line, i)
      invariant AllDigits(line[i..j]) && v == DecimalValue(line[i..j])
    {
      assert line[i..j + 1] == line[i..j] + [line[j]];
      DecimalAppend(line[i..j], line[j]);
      v := 10 * v + DigitValue(line[j]);
      j := j + 1;
    }
    r := Success(v);
  }
}

=== FILE: text.dfy ===
/**
  Character-level helpers the status-file reader relies on: ASCII digits,
  base-10 values of digit strings, substring search and character search.
  These stand in for the string routines the tracker borrows from its
  string library (substring search and decimal conversion).
 */
module Text {

  /** The ASCII range 48..57 the reader tests characters against. */
  predicate IsDigit(c: char) {
    '0' <= c <= '9'
  }

  function DigitValue(c: char): (d: nat)
    requires IsDigit(c)
    ensures d < 10
  {
    c as int - '0' as int
  }

  function DigitChar(d: nat): (c: char)
    requires d < 10
    ensures IsDigit(c) && DigitValue(c) == d
  {
    ('0' as int + d) as char
  }

  predicate AllDigits(s: string) {
    forall i | 0 <= i < |s| :: IsDigit(s[i])
  }

  /** Base-10 value of a digit string, most significant digit first; "" is 0. */
  function DecimalValue(s: string): nat
    requires AllDigits(s)
    decreases |s|
  {
    if s == [] then 0 else 10 * DecimalValue(s[..|s| - 1]) + DigitValue(s[|s| - 1])
  }

  /** Appending a digit shifts the value one decimal place. */
  lemma DecimalAppend(s: string, c: char)
    requires AllDigits(s) && IsDigit(c)
    ensures AllDigits(s + [c])
    ensures DecimalValue(s + [c]) == 10 * DecimalValue(s) + DigitValue(c)
  {
    assert (s + [c])[..|s|] == s;
  }

  /** Shortest decimal spelling of `n`: no leading zero unless `n` is 0. */
  function ToDecimal(n: nat): (s: string)
    ensures |s| > 0 && AllDigits(s)
    ensures DecimalValue(s) == n
    ensures s[0] == '0' ==> n == 0 && |s| == 1
    decreases n
  {
    if n < 10 then [DigitChar(n)]
    else
      var t := ToDecimal(n / 10);
      var s := t + [DigitChar(n % 10)];
      assert s[..|s| - 1] == t;
      s
  }

  /** A digit string of value 0 consists of zeros only. */
  lemma {:induction false} ZeroValueAllZeros(s: string)
    requires AllDigits(s) && DecimalValue(s) == 0
    ensures forall i | 0 <= i < |s| :: s[i] == '0'
    decreases |s|
  {
    if s != [] {
      var t := s[..|s| - 1];
      ZeroValueAllZeros(t);
      assert forall i | 0 <= i < |t| :: s[i] == t[i];
    }
  }

  /** Decimal spelling and value are inverse on canonical digit strings. */
  lemma {:induction false} DecimalRoundTrip(s: string)
    requires |s| > 0 && AllDigits(s)
    requires s[0] == '0' ==> |s| == 1
    ensures ToDecimal(DecimalValue(s)) == s
    decreases |s|
  {
    var n := DecimalValue(s);
    var c := s[|s| - 1];
    if |s| == 1 {
      assert DecimalValue(s[..0]) == 0;
      assert n == DigitValue(c);
      assert DigitChar(DigitValue(c)) == c;
    } else {
      var t := s[..|s| - 1];
      assert t[0] == s[0];
      DecimalRoundTrip(t);
      if DecimalValue(t) == 0 {
        ZeroValueAllZeros(t);
        assert false;
      }
      assert n / 10 == DecimalValue(t) && n % 10 == DigitValue(c);
      assert DigitChar(DigitValue(c)) == c;
      assert s == t + [c];
    }
  }

  /** `pat` occurs in `s` starting at index `i`. */
  predicate OccursAt(s: string, pat: string, i: int) {
    0 <= i && i + |pat| <= |s| && s[i..i + |pat|] == pat
  }

  /** Substring search, scanning candidate start positions left to right. */
  function Contains(s: string, pat: string): bool
    decreases |s|
  {
    if |s| < |pat| then false
    else s[..|pat|] == pat || Contains(s[1..], pat)
  }

  /** The scan finds `pat` exactly when it occurs at some position. */
  lemma {:induction false} ContainsIffOccurs(s: string, pat: string)
    ensures Contains(s, pat) <==> exists i :: OccursAt(s, pat, i)
    decreases |s|
  {
    if pat == [] {
      assert OccursAt(s, pat, 0);
    } else if |s| >= |pat| {
      ContainsIffOccurs(s[1..], pat);
      if Contains(s, pat) {
        if s[..|pat|] == pat {
          assert OccursAt(s, pat, 0);
        } else {
          var i :| OccursAt(s[1..], pat, i);
          assert s[1..][i..i + |pat|] == s[i + 1..i + 1 + |pat|];
          assert OccursAt(s, pat, i + 1);
        }
      } else {
        forall i | OccursAt(s, pat, i)
          ensures false
        {
          if i != 0 {
            assert s[1..][i - 1..i - 1 + |pat|] == s[i..i + |pat|];
            assert OccursAt(s[1..], pat, i - 1);
          }
        }
      }
    } else {
      forall i | OccursAt(s, pat, i)
        ensures false
      {
      }
    }
  }

  /** Index of the first `c` in `s`, or |s| when there is none. */
  function IndexOf(s: string, c: char): (k: nat)
    ensures k <= |s|
    ensures forall j | 0 <= j < k :: s[j] != c
    ensures k < |s| ==> s[k] == c
    decreases |s|
  {
    if s == [] then 0
    else if s[0] == c then 0
    else 1 + IndexOf(s[1..], c)
  }

  /** First index at or after `k` holding a digit, or |s| when there is none. */
  function DigitFrom(s: string, k: nat): (i: nat)
    requires k <= |s|
    ensures k <= i <= |s|
    ensures forall j | k <= j < i :: !IsDigit(s[j])
    ensures i < |s| ==> IsDigit(s[i])
    decreases |s| - k
  {
    if k == |s| then k
    else if IsDigit(s[k]) then k
    else DigitFrom(s, k + 1)
  }

  /** End of the run of digits starting at `k`: the first non-digit at or after `k`, or |s|. */
  function RunEnd(s: string, k: nat): (e: nat)
    requires k <= |s|
    ensures k <= e <= |s|
    ensures forall j | k <= j < e :: IsDigit(s[j])
    ensures e < |s| ==> !IsDigit(s[e])
    decreases |s| - k
  {
    if k == |s| then k
    else if !IsDigit(s[k]) then k
    else RunEnd(s, k + 1)
  }

  /** The digit search gives the same answer on any extension of a prefix that holds a digit. */
  lemma DigitFromPrefix(s: string, p: nat, k: nat)
    requires k <= p <= |s|
    requires DigitFrom(s[..p], k) < p
    ensures DigitFrom(s, k) == DigitFrom(s[..p], k)
  {
  }

  /** The run end is unchanged by extending a prefix when the run stops inside it,
      or when the first extra character is not a digit. */
  lemma RunEndPrefix(s: string, p: nat, k: nat)
    requires k <= p < |s|
    requires RunEnd(s[..p], k) < p || !IsDigit(s[p])
    ensures RunEnd(s, k) == RunEnd(s[..p], k)
  {
  }
}

=== FILE: tracker.dfy ===
/**
  The driver's sampling loop over a finite run: each sample is compared with
  the running maximum, which starts at 0; a strictly larger sample becomes the
  new maximum and is reported.  The C code loops forever; a finite sequence
  of samples stands for any prefix of that loop.
 */
module PeakTracker {
  import opened Wrappers
  import opened StatusLines
  import Sampler

  /** The running maximum (kilobytes) and the values reported so far, oldest first. */
  datatype Tracker = Tracker(peak: nat, reports: seq<nat>)

  const Start: Tracker := Tracker(0, [])

  /** One pass of the loop body after the sample was read. */
  function Step(t: Tracker, sample: nat): (t': Tracker)
    ensures t'.peak >= t.peak && t'.peak >= sample
    ensures t'.peak == t.peak || t'.peak == sample
    ensures sample > t.peak <==> t'.reports == t.reports + [sample]
    ensures sample <= t.peak ==> t' == t
  {
    if sample > t.peak then Tracker(sample, t.reports + [sample]) else t
  }

  /** The loop run over `samples`, in order, from the start state. */
  function Track(samples: seq<nat>): Tracker
    decreases |samples|
  {
    if samples == [] then Start
    else Step(Track(samples[..|samples| - 1]), samples[|samples| - 1])
  }

  /** Sample `i` is positive and strictly above every earlier sample. */
  predicate IsRecord(samples: seq<nat>, i: nat)
    requires i < |samples|
  {
    samples[i] > 0 && forall j | 0 <= j < i :: samples[j] < samples[i]
  }

  /** The records of `samples`, in order: its strictly increasing positive prefix maxima. */
  function Records(samples: seq<nat>): seq<nat>
    decreases |samples|
  {
    if samples == [] then []
    else
      var n := |samples| - 1;
      Records(samples[..n]) + (if IsRecord(samples, n) then [samples[n]] else [])
  }

  predicate StrictlyIncreasing(s: seq<nat>) {
    forall i, j | 0 <= i < j < |s| :: s[i] < s[j]
  }

  /** The running maximum is the largest sample, or 0 before any positive sample. */
  lemma {:induction false} TrackPeak(samples: seq<nat>)
    ensures forall i | 0 <= i < |samples| :: samples[i] <= Track(samples).peak
    ensures Track(samples).peak == 0 || Track(samples).peak in samples
    decreases |samples|
  {
    if samples != [] {
      var n := |samples| - 1;
      var prefix := samples[..n];
      TrackPeak(prefix);
      assert forall i | 0 <= i < n :: samples[i] == prefix[i];
      assert Track(prefix).peak in prefix ==> Track(prefix).peak in samples;
    }
  }

  /** A sample is reported exactly when it is a record: the loop reports the
      strictly increasing prefix maxima of the samples and nothing else. */
  lemma {:induction false} TrackReportsRecords(samples: seq<nat>)
    ensures Track(samples).reports == Records(samples)
    decreases |samples|
  {
    if samples != [] {
      var n := |samples| - 1;
      var prefix := samples[..n];
      TrackReportsRecords(prefix);
      TrackPeak(prefix);
      var before := Track(prefix);
      assert forall i | 0 <= i < n :: samples[i] == prefix[i];
      if samples[n] > before.peak {
        assert IsRecord(samples, n);
      } else if before.peak > 0 {
        var k :| 0 <= k < n && prefix[k] == before.peak;
        assert !IsRecord(samples, n);
      }
    }
  }

  /** Reports strictly increase, never include 0, and the last one is the
      running maximum; no report at all means the maximum is still 0. */
  lemma {:induction false} ReportsIncrease(samples: seq<nat>)
    ensures StrictlyIncreasing(Track(samples).reports)
    ensures 0 !in Track(samples).reports
    ensures Track(samples).reports == [] <==> Track(samples).peak == 0
    ensures Track(samples).reports != [] ==>
              Track(samples).reports[|Track(samples).reports| - 1] == Track(samples).peak
    decreases |samples|
  {
    if samples != [] {
      var n := |samples| - 1;
      ReportsIncrease(samples[..n]);
      var before := Track(samples[..n]);
      if samples[n] > before.peak {
        var rs := before.reports + [samples[n]];
        assert forall i | 0 <= i < |before.reports| :: rs[i] == before.reports[i];
      }
    }
  }

  /** The example run: samples 100, 100, 250, 200, 400 report 100, 250, 400. */
  lemma ExampleRun(samples: seq<nat>)
    requires samples == [100, 100, 250, 200, 400]
    ensures Track(samples).reports == [100, 250, 400]
    ensures Track(samples).peak == 400
  {
    assert samples[..0] == [];
    assert Track(samples[..1]) == Tracker(100, [100]) by {
      assert samples[..1][..0] == samples[..0];
    }
    assert Track(samples[..2]) == Tracker(100, [100]) by {
      assert samples[..2][..1] == samples[..1];
    }
    assert Track(samples[..3]) == Tracker(250, [100, 250]) by {
      assert samples[..3][..2] == samples[..2];
    }
    assert Track(samples[..4]) == Tracker(250, [100, 250]) by {
      assert samples[..4][..3] == samples[..3];
    }
    assert samples[..5] == samples;
  }

  /** The values read from consecutive snapshots of the status file, up to
      the first read that fails. */
  function Readings(snapshots: seq<string>): (vs: seq<nat>)
    ensures |vs| <= |snapshots|
    ensures forall i | 0 <= i < |vs| :: Sampler.ReadStatus(snapshots[i]) == Success(vs[i])
    ensures |vs| < |snapshots| ==> Sampler.ReadStatus(snapshots[|vs|]).Failure?
    decreases |snapshots|
  {
    if snapshots == [] then []
    else
      match Sampler.ReadStatus(snapshots[0])
      case Failure(_) => []
      case Success(v) => [v] + Readings(snapshots[1..])
  }

  /** The driver over successive snapshots of the status file: read, update,
      report.  The run stops at the first snapshot the corrected reader
      rejects; on such a snapshot the C code has undefined behaviour or
      reports digits left over from an earlier line. */
  method Monitor(snapshots: seq<string>) returns (t: Tracker, failure: Option<Sampler.ReadError>)
    ensures t == Track(Readings(snapshots))
    ensures failure.None? <==> |Readings(snapshots)| == |snapshots|
    ensures failure.Some? ==> Sampler.ReadStatus(snapshots[|Readings(snapshots)|]) == Failure(failure.value)
  {
    ghost var vs := Readings(snapshots);
    t := Start;
    var i := 0;
    assert vs[..0] == [];
    while i < |snapshots|
      invariant 0 <= i <= |vs|
      invariant t == Track(vs[..i])
    {
      var r := Sampler.ReadStatusProcFile(snapshots[i]);
      if r.Failure? {
        assert i == |vs|;
        assert vs[..i] == vs;
        return t, Some(r.error);
      }
      assert vs[..i + 1][..i] == vs[..i];
      t := Step(t, r.value);
      i := i + 1;
    }
    assert vs[..i] == vs;
    failure := None;
  }

  /** A snapshot without the VmHWM field reads as 0, which never changes the
      tracker: the silent zero of a missing field is never reported. */
  lemma MissingFieldIsSilent(t: Tracker, text: string)
    requires Sampler.AllSkipped(Lines(text)) && |Residue(text)| <= Sampler.BufferSize
    ensures Sampler.ReadStatus(text).Success?
    ensures Step(t, Sampler.ReadStatus(text).value) == t
  {
    Sampler.NoMatchReadsZero(text);
  }
}

=== FILE: wrappers.dfy ===
/** Failure-carrying results used by the sampler and the argument handling. */
module Wrappers {

  datatype Option<+T> = None | Some(value: T)

  datatype Result<+R, +E> = Success(value: R) | Failure(error: E)
}
